=== FILE: README.md ===
# Job board core, modelled in Dafny

This project models the server side of a small job board:

- **Job listing route** (`GET /api/jobs`). A read-through cache sits in front of the "latest 50 jobs, newest first" query, under the single key `jobs:latest` with a one-hour expiry.
- **Job submit route** (`POST /api/jobs`). It deduplicates by apply link, validates against the Job schema and invalidates the cache.
- **Application-tracking routes** (`/api/applications`, JavaScript and TypeScript versions). They have an authentication gate, list the caller's applications newest first, and track a new application against the schema file the route is bound to.
- **User routes** (`/api/user`, JavaScript and TypeScript versions). The gate also admits any request carrying a user. The routes save the caller's resume text and read the caller's profile.
- **GitHub login and sessions** of the server entry point: find-or-create of a user from a GitHub profile, session serialisation, and `/auth/user`.
- **The three document schemas** (Job, Application, User). The model covers the required paths, the status enumeration, defaults, and dropping of undeclared fields. It also gives the exact validation-failure message.
- **Resume analyser** (`worker/main.py`): the keyword scorer shared by its file and text endpoints. It covers target keywords, found and missing keywords, the match ratio, the shortlist probability and the suggestions.

Every handler is a pure function from the state (job collection and cache key, application collection, user collection) and the request to the new state and the reply. The clock and every awaited I/O step that can throw are parameters: a fault value says which call throws, and with what message. The session lookup is the exception, as "Left out" says. A Mongo ObjectId is a natural number. A new document gets a fresh id, as the driver mints it when the document is built; `Common.NextId` stands for that. A stored instant is an integer count of seconds.

Modules:

- `Common`: Option, Result, Reply, ids, subsequences.
- `Ordering`: stable descending sort and top-n by an optional key.
- `Text`: ASCII lower-casing, substring search, join.
- `Models`: the schemas.
- `JobsRoute`, `ApplicationsRoute`, `UserRoute`, `Auth` and `Scorer`: the handlers.

Behaviour worth knowing, as the code has it:

- **The listing route does not fail open.** A throwing cache `get` or `set` gives 500 `Server Error`, exactly as a throwing store query does (`JobsRoute.ListJobs`).
- **Validation failures are 500s.** Every route answers a failed schema validation with status 500 and the thrown `... validation failed: ...` message.
- **Only the JavaScript Application schema has `Wishlist`.** `server/models/Application.js` accepts it and `server/models/Application.ts` does not, so the TypeScript application route refuses it with a 500 (`ApplicationsRoute.WishlistDependsOnRoute`).

`server/models/Job.ts` and `server/models/User.ts` declare the same paths as their JavaScript counterparts, so one Job type and one User type serve both.

## Model

| member | source | states |
|---|---|---|
| Common.NextId | server/routes/jobs.js:49-50 | a new document's id differs from every stored id |
| Ordering.SortDesc | server/routes/applications.ts:17 | `sort({ field: -1 })` returns a permutation of its input that is ordered by descending key, with a missing key last |
| Ordering.TopN | server/routes/jobs.js:27 | `sort(-1).limit(n)` returns `min(n, len)` items, ordered by descending key. They form a sub-multiset of the input, all of it when the input has at most n items, and each is at least as new as every item left out |
| Text.Lower | worker/main.py:46-47 | lower-casing keeps the length and turns each ASCII capital into its small letter (code point plus 32). Every other character is kept, and no capital is left |
| Text.ContainsIffOccurs | worker/main.py:56 | Python's `k in s` holds exactly when `k` occurs at some index of `s` |
| Text.ContainsPrefix | worker/main.py:56 | a string that contains a word also contains every prefix of that word |
| Models.MissingIfAbsent | server/models/Job.js:4 | a `required` String path reports an error exactly when the value is absent or empty |
| Models.BuildJob | server/models/Job.js:3-13 | saving a job succeeds exactly when title, company and apply link are present and non-empty. The stored job carries every field of the draft. `scrapedAt` is the given instant or else now, and tags are the given list or else empty. A failure carries the `Job validation failed: ...` message |
| Models.SchemaAllowsDuplicateLinks | server/models/Job.ts:20 | the schema puts no uniqueness constraint on the apply link: a draft that saves once saves again with the same link |
| Models.BuildApplication | server/models/Application.js:3-16 | saving an application succeeds exactly when the owner, company and role are given and the status (default `Applied`) is in the schema's enumeration. The stored record copies the draft's owner, company, role, job and status. A given date is kept and a missing one becomes now. The JavaScript schema keeps notes and score, and the TypeScript schema drops them. A failure carries the validation message |
| Models.WishlistOnlyInJsSchema | server/models/Application.ts:17 | a draft with status `Wishlist` saves under the JavaScript schema and fails under the TypeScript one |
| Models.TsStatusesWithinJs | server/models/Application.js:10 | every status the TypeScript schema accepts, the JavaScript schema accepts too |
| Models.BuildUser | server/models/User.js:3-12 | saving a user succeeds exactly when the GitHub id and username are present. A new user has no resume, score or skills, and `createdAt` is now. Undeclared fields are not stored |
| Models.FindUserById | server/index.js:32 | `findById` returns a stored record with that id, or null exactly when no record has that id |
| Models.FindUserByGithubId | server/index.js:43 | `findOne({ githubId })` returns a stored record with that GitHub id, or null exactly when none has it |
| Models.FindStoredGithubUser | server/models/User.ts:15 | with the unique index on the GitHub id, looking up a stored user's GitHub id returns that very user |
| Models.FindStoredUser | server/index.js:32 | with unique `_id`s, looking up a stored user's id returns that very user |
| JobsRoute.Latest | server/routes/jobs.js:27 | the fresh listing has at most 50 jobs, newest first. It is drawn from the store, is all of it when the store is small, and no job left out is newer than one listed |
| JobsRoute.ListJobs | server/routes/jobs.js:17-39 | a live cache entry is answered as is, with no query. A miss answers the latest jobs and caches them for 3600 s. Any thrown step gives a 500 `Server Error` and leaves the state unchanged. A read never writes the job collection |
| JobsRoute.RepeatedListingIsStable | server/routes/jobs.js:20-32 | two reads within the hour answer the same list, and the second one does not query the store |
| JobsRoute.ExpiredListingIsRecomputed | server/routes/jobs.js:20-31 | once the hour is over, the next read queries the store again |
| JobsRoute.SubmitJob | server/routes/jobs.js:42-59 | a link already stored gets 200 `Job already exists` and no change. Otherwise the store gains at most one job. That job is the request body saved under an id no stored job has, its link is not yet stored, and it is what a 201 returns. Success deletes the cache. A throwing lookup, validation or save gives a 500 with that error's message and no change. A throwing delete gives a 500 with its message, with the job stored and the cache kept |
| JobsRoute.SubmitKeepsStoreSound | server/routes/jobs.js:45-50 | a submit preserves "no two stored jobs share an apply link" and "every stored job is valid" |
| JobsRoute.SubmitAllKeepsLinksDistinct | server/routes/jobs.js:45-50 | any sequence of submits, sequentially served, keeps apply links pairwise distinct |
| JobsRoute.SubmitThenListIsFresh | server/routes/jobs.js:52-53 | after a successful submit the next read misses and answers the latest jobs of the grown store |
| JobsRoute.FailedInvalidationServesStaleListing | server/routes/jobs.js:49-57 | if deleting the key throws, the job is stored, the caller sees a 500, and a live cached listing keeps being served without the new job |
| JobsRoute.ResubmitIsDeduplicated | server/routes/jobs.js:46-47 | resubmitting a just-accepted job is answered `Job already exists` and changes nothing |
| Auth.PrimaryEmail | server/index.js:50 | a profile without emails gives the empty string. An empty email list throws, and otherwise the first email is used |
| Auth.FindOrCreate | server/index.js:40-58 | a known GitHub id logs in as the stored user and creates nothing. A user is created exactly when the lookup misses, the profile has an id, a username, a photo and a readable email, and the save does not throw. The new user is the profile saved under the User schema with a fresh id, so `createdAt` is now and it has no skills or score, and it is the one logged in. A throwing lookup fails the login with its error, even for a known GitHub id. A thrown step stores nothing |
| Auth.FindOrCreateKeepsUsersWellFormed | server/index.js:43-51 | a login keeps `_id` and `githubId` unique and every user valid |
| Auth.LoginAllKeepsGithubIdsUnique | server/index.js:43-51 | any sequence of logins keeps GitHub ids unique |
| Auth.SecondLoginFindsSameUser | server/index.js:43-53 | a second login with the same profile finds the user the first one created and changes nothing |
| Auth.SerializeUser | server/index.js:30 | the session keeps the user's `_id`; `Auth.SessionRoundTrip` shows that deserialising gives the user back |
| Auth.DeserializeUser | server/index.js:31-33 | the session resolves to a stored user whose serialised id is the session's id, and to nothing exactly when no stored user has that id |
| Auth.SessionRoundTrip | server/index.js:30-33 | deserialising a serialised stored user gives back that user |
| Auth.RequestFor | server/index.js:26-33 | a request counts as authenticated exactly when a user is attached. A user is attached exactly when the session names an id some stored user has, and it is a stored user with that id |
| Auth.CurrentUser | server/index.js:80-82 | `/auth/user` answers the attached user or null; `Auth.LoginThenCurrentUser` and `Auth.NoSessionNoUser` pin down both cases |
| Auth.LoginThenCurrentUser | server/index.js:80-82 | after a successful login, `/auth/user` answers the logged-in user |
| Auth.NoSessionNoUser | server/index.js:80-82 | without a session, `/auth/user` answers null |
| ApplicationsRoute.EnsureAuth | server/routes/applications.js:6-9 | the application gate passes exactly the requests passport reports as authenticated; the routes answer 401 `Unauthorized` otherwise |
| ApplicationsRoute.OwnedBy | server/routes/applications.js:14 | `find({ userId })` returns every record of that owner, each as often as stored, and no other |
| ApplicationsRoute.ListApplications | server/routes/applications.ts:14-22 | unauthenticated requests get 401. Otherwise the reply is exactly the caller's applications, newest first. A missing user, or a throwing query, gives a 500 with that error's message |
| ApplicationsRoute.TrackApplication | server/routes/applications.ts:25-43 | unauthenticated requests get 401 and nothing is stored. Otherwise exactly one record is appended, owned by the caller and dated now, with the given status or `Applied`, and returned with 201 when it validates. That record is the body saved under the route's schema with an id no stored record has, so it carries no notes or score. Past the gate every rejection stores nothing and is a 500. A missing user gives a 500, and so does a draft the schema refuses, with its `Application validation failed: ...` message. A throwing save gives a 500 with its own message |
| ApplicationsRoute.OwnershipIsolation | server/routes/applications.js:14-34 | tracking by one user leaves another user's list unchanged |
| ApplicationsRoute.TrackThenListShowsIt | server/routes/applications.js:14-35 | a tracked application appears in its owner's list |
| ApplicationsRoute.RepeatedTrackAddsEach | server/routes/applications.js:22-39 | there is no deduplication: n identical accepted requests add n records after the existing ones |
| ApplicationsRoute.WishlistDependsOnRoute | server/routes/applications.js:26-34 | `Wishlist` is stored by the JavaScript route and refused with a 500 by the TypeScript route, which stores nothing |
| UserRoute.EnsureAuth | server/routes/user.js:6-10 | the user gate, with its development bypass, passes an authenticated request or any request carrying a user; `UserRoute.BypassAdmitsUnauthenticatedUser` and `UserRoute.BypassIsRedundantUnderSessions` say what the bypass adds |
| UserRoute.BypassIsRedundantUnderSessions | server/routes/user.ts:7-11 | with passport's sessions, the bypass gate admits the same requests as the plain gate |
| UserRoute.BypassAdmitsUnauthenticatedUser | server/routes/user.js:6-9 | the bypass admits a request that carries a user but is not authenticated |
| UserRoute.SetResume | server/routes/user.ts:20-29 | only the record with the caller's id gets the new resume text, and every other record is unchanged. An absent text changes nothing |
| UserRoute.SaveResume | server/routes/user.ts:14-36 | 401 without auth. On success, 200 with the record as updated (or null), and the store updated as above. A missing user, or a throwing update, gives a 500 with that error's message and changes nothing |
| UserRoute.Profile | server/routes/user.ts:39-47 | 401 without auth. Otherwise the stored record with the caller's id, or null exactly when there is none. A missing user, or a throwing lookup, gives a 500 with that error's message |
| UserRoute.SaveChangesOnlyResume | server/routes/user.js:18-29 | the returned record is the caller's stored record with only the resume text changed |
| UserRoute.SaveThenProfile | server/routes/user.js:13-43 | saving a resume then reading the profile gives the saved text |
| UserRoute.SaveResumeIdempotent | server/routes/user.js:18-29 | saving the same text twice gives the same store and reply as saving it once |
| Scorer.Targets | worker/main.py:56 | the targets are the keywords, in list order, that occur in the lower-cased description, and only those |
| Scorer.Partition | worker/main.py:59-63 | found and missing split the targets, each in target order, and together they hold every target. Found keywords occur in the resume and missing ones do not |
| Scorer.MatchRatio | worker/main.py:66-70 | the ratio is 0.5 without targets, and otherwise found/targets, which lies in [0, 1] |
| Scorer.Probability | worker/main.py:72 | `min(0.1 + 0.8 ratio, 0.98)`: either the cap or the linear value, never above either |
| Scorer.ProbabilityBounds | worker/main.py:72 | for a ratio in [0, 1] the cap never applies and the probability is in [0.1, 0.9] |
| Scorer.Analyze | worker/main.py:46-72 | the targets are exactly the known keywords in the description, in list order. The missing keywords are exactly the targets absent from the resume. Found and missing keywords both keep the list's order, which the first-three skills hint relies on. The ratio is found/targets (0.5 without targets), and the probability is `0.1 + 0.8 ratio`, within [0.1, 0.9] |
| Scorer.HalfThreshold | worker/main.py:70 | a ratio of counts is below one half exactly when twice the found count is below the target count |
| Scorer.LowProbabilityIffFewFound | worker/main.py:82 | the low-score suggestion fires exactly when the description names some known keyword and fewer than half of them are found |
| Scorer.JavascriptTargetsJava | worker/main.py:50-56 | a description mentioning JavaScript also targets `java`, since matching is by substring |
| Scorer.FirstThree | worker/main.py:77 | `missing[:3]` is the first min(3, n) keywords |
| Scorer.FileAdvice | worker/main.py:75-83 | the file endpoint advises adding skills (the first three missing ones) exactly when some are missing. It advises elaborating exactly when the text is under 500 characters, quantifying exactly when neither `quantified` nor `%` occurs, and reformatting exactly when the probability is under 0.5. Each kind appears at most once, in that order |
| Scorer.TextAdvice | worker/main.py:125-128 | the same rules without the quantification hint, each kind at most once, in the order skills, length, score |
| Scorer.TextAdviceOmitsOnlyQuantify | worker/main.py:125-128 | the text endpoint's advice is the file endpoint's with the quantification hint removed |
| Scorer.TextAdviceMembers | worker/main.py:125-128 | the text endpoint gives a suggestion exactly when the file endpoint gives it and it is not the quantification hint |
| Scorer.PredictFromFile | worker/main.py:46-90 | the answer carries the analysis's probability and its missing keywords, which are exactly the known keywords in the description that the resume lacks. There is one suggestion sentence per piece of file advice, in order |
| Scorer.PredictFromText | worker/main.py:107-135 | the same for the text endpoint, with one sentence per piece of text advice |
| Scorer.EndpointsAgree | worker/main.py:107-123 | both endpoints give the same probability and missing keywords for the same text |

## Left out

- JSON serialisation of the cached listing is taken as the identity (`JSON.parse(JSON.stringify(jobs))` gives the same list back). Date fields and ObjectIds are not re-encoded.
- Redis and Mongo connection set-up, the Redis `error` handler, logging, and the session cookie and its secret are left out. These are I/O with no effect on replies beyond the fault parameters.
- Concurrency: every handler runs to completion before the next. Two simultaneous submits of one link can both pass the `findOne` check in the source, and the model does not show this race.
- `Ordering.SortDesc` and `JobsRoute.Latest` break ties in store order (a stable sort). Mongo leaves the order of equal keys unspecified.
- JobsRoute.SubmitJob: Mongoose casting of request-body values is not modelled. A non-string `applyLink` would turn the `findOne` filter into a query operator, and a number would be cast to a string. Body fields are already typed.
- ApplicationsRoute.TrackApplication: a `jobId` that is not a valid ObjectId fails the cast and gives a 500 in the source. The model types `jobId` as an id, so that failure is not modelled.
- JobsRoute.SubmitJob: a body with no `applyLink` is taken to match no stored job in `findOne` (the driver sends the key as null). It then fails validation with a 500.
- UserRoute.SetResume: `resumeUploadedAt` is not a schema path, so Mongoose's strict mode drops it and it is never stored. An absent `resumeText` is stripped from the update and leaves the stored text unchanged. That stripping depends on the Mongoose version.
- Auth.DeserializeUser: a throwing `User.findById` is not modelled. The source has no `.catch` there, so `done` is never called and the request gets no reply. On recent Node versions the unhandled rejection also ends the process. The model assumes the session lookup does not throw.
- Auth.FindOrCreate: `displayName` is not a User schema path and is dropped on save. The GitHub access and refresh tokens are unused by the callback and are not modelled.
- The OAuth redirect dance (`/auth/github`, the callback redirect) and `/auth/logout` are left out. They are framework and browser plumbing around the modelled find-or-create and session steps.
- `server/index.ts`, `server/test-db.js` and the whole client (pages, navbar, API helper) are not part of this model.
- Scorer.PredictFromFile: PDF text extraction and UTF-8 decoding of the upload are not modelled, and the model starts from the extracted text. `/parse-resume` and `/trigger-scrape` (the scraper) are left out for the same reason.
- Scorer.Analyze: Python's float arithmetic is modelled with exact reals. `round(probability, 2)` and `ats_score = int(probability * 100)` are left out, so the model keeps the unrounded probability only.
- Text.Lower: only ASCII letters are lower-cased. Python's `str.lower` also folds non-ASCII letters.

=== FILE: applications.dfy ===
/**
 * The application-tracking route (`/api/applications`): an authentication
 * gate, the caller's applications newest first, and tracking a new one. The
 * JavaScript route is bound to the JavaScript schema file and the TypeScript
 * route to the TypeScript one; the handlers are otherwise the same, so the
 * schema file is a parameter.
 */
module ApplicationsRoute {
  import opened Common
  import opened Models
  import opened Ordering
  import opened Auth

  /** `ensureAuth`: only a session the framework reports as authenticated passes. */
  predicate EnsureAuth(req: Request) {
    req.isAuthenticated
  }

  function AppliedDate(a: Application): Option<int> {
    Some(a.appliedDate)
  }

  /** `Application.find({ userId })` before sorting: every record of that owner, each as often as stored. */
  function OwnedBy(apps: seq<Application>, owner: Id): (r: seq<Application>)
    ensures forall a :: multiset(r)[a] == if a.userId == owner then multiset(apps)[a] else 0
    ensures forall a :: a in r ==> a.userId == owner
  {
    if apps == [] then []
    else
      assert apps == [apps[0]] + apps[1..];
      (if apps[0].userId == owner then [apps[0]] else []) + OwnedBy(apps[1..], owner)
  }

  lemma OwnedByAppend(apps: seq<Application>, a: Application, owner: Id)
    requires a.userId != owner
    ensures OwnedBy(apps + [a], owner) == OwnedBy(apps, owner)
  {
    if apps != [] {
      assert (apps + [a])[1..] == apps[1..] + [a];
      OwnedByAppend(apps[1..], a, owner);
    }
  }

  /** `GET /api/applications`. */
  function ListApplications(apps: seq<Application>, req: Request, storeError: Option<string>): (r: Reply<seq<Application>>)
    ensures !EnsureAuth(req) ==> r == Message(401, Unauthorized)
    ensures r.Json? ==>
      && r.status == 200
      && EnsureAuth(req) && req.user.Some?
      && SortedDesc(r.value, AppliedDate)
      && forall a :: multiset(r.value)[a] == if a.userId == req.user.value.id then multiset(apps)[a] else 0
    ensures r.Json? <==> EnsureAuth(req) && req.user.Some? && storeError.None?
    // A passed gate without a user, or a throwing query, answers 500 with the error's message.
    ensures EnsureAuth(req) && req.user.None? ==> r == Message(500, MissingUser)
    ensures EnsureAuth(req) && req.user.Some? && storeError.Some? ==> r == Message(500, storeError.value)
  {
    if !EnsureAuth(req) then Message(401, Unauthorized)
    else if req.user.None? then Message(500, MissingUser)
    else if storeError.Some? then Message(500, storeError.value)
    else Json(200, SortDesc(OwnedBy(apps, req.user.value.id), AppliedDate))
  }

  /** The fields of the request body the handler picks out. */
  datatype TrackBody = TrackBody(company: Option<string>, role: Option<string>, jobId: Option<Id>, status: Option<string>)

  /** `status || 'Applied'`: a missing or empty status becomes the default. */
  function StatusOrDefault(status: Option<string>): string {
    if status.Some? && status.value != "" then status.value else DefaultStatus
  }

  datatype TrackOutcome = TrackOutcome(apps: seq<Application>, reply: Reply<Application>)

  /** `new Application({ userId, company, role, jobId, status: status || 'Applied' })`. */
  function TrackDraft(owner: Id, body: TrackBody): ApplicationDraft {
    ApplicationDraft(Some(owner), body.company, body.role, body.jobId,
                     Some(StatusOrDefault(body.status)), None, None, None)
  }

  /** `POST /api/applications` at time `now`, saving against `schema`. */
  function TrackApplication(schema: SchemaFile, apps: seq<Application>, req: Request, body: TrackBody,
                            now: int, storeError: Option<string>): (res: TrackOutcome)
    // Unauthenticated: 401 and nothing stored.
    ensures !EnsureAuth(req) ==> res == TrackOutcome(apps, Message(401, Unauthorized))
    // Either nothing is stored, or exactly one record owned by the caller is appended and returned with 201.
    ensures res.apps == apps || (res.reply.Json? && res.apps == apps + [res.reply.value])
    ensures res.reply.Json? ==>
      && res.reply.status == 201
      && req.user.Some?
      && res.reply.value.userId == req.user.value.id
      && Some(res.reply.value.company) == body.company
      && Some(res.reply.value.role) == body.role
      && res.reply.value.jobId == body.jobId
      && res.reply.value.appliedDate == now
      && ApplicationValid(schema, res.reply.value)
    // The stored status is the one given when non-empty, `Applied` otherwise.
    ensures res.reply.Json? && body.status.Some? && body.status.value != "" ==> res.reply.value.status == body.status.value
    ensures res.reply.Json? && (body.status.None? || body.status.value == "") ==> res.reply.value.status == "Applied"
    ensures res.reply.Json? <==>
      && EnsureAuth(req) && req.user.Some? && storeError.None?
      && Present(body.company) && Present(body.role)
      && StatusOrDefault(body.status) in Statuses(schema)
    // The record is the body saved under the schema with an id no stored record has.
    ensures res.reply.Json? ==>
      && BuildApplication(schema, TrackDraft(req.user.value.id, body), res.reply.value.id, now) == Success(res.reply.value)
      && forall a :: a in apps ==> a.id != res.reply.value.id
    // Past the gate every rejection is a 500: a missing user, the validation
    // message of a draft the schema refuses, or the message of a throwing save.
    ensures EnsureAuth(req) && res.reply.Message? ==> res.reply.status == 500
    ensures EnsureAuth(req) && req.user.None? ==> res == TrackOutcome(apps, Message(500, MissingUser))
    ensures EnsureAuth(req) && req.user.Some? && ApplicationErrors(schema, TrackDraft(req.user.value.id, body)) != [] ==>
      res == TrackOutcome(apps, Message(500, ValidationMessage("Application", ApplicationErrors(schema, TrackDraft(req.user.value.id, body)))))
    ensures EnsureAuth(req) && req.user.Some? && ApplicationErrors(schema, TrackDraft(req.user.value.id, body)) == [] && storeError.Some? ==>
      res == TrackOutcome(apps, Message(500, storeError.value))
  {
    if !EnsureAuth(req) then TrackOutcome(apps, Message(401, Unauthorized))
    else if req.user.None? then TrackOutcome(apps, Message(500, MissingUser))
    else
      var draft := TrackDraft(req.user.value.id, body);
      match BuildApplication(schema, draft, NextId(Ids(apps, (a: Application) => a.id)), now)
      case Failure(e) => TrackOutcome(apps, Message(500, e))
      case Success(a) =>
        if storeError.Some? then TrackOutcome(apps, Message(500, storeError.value))
        else TrackOutcome(apps + [a], Json(201, a))
  }

  /** Tracking by one user leaves what another user lists exactly as it was. */
  lemma OwnershipIsolation(schema: SchemaFile, apps: seq<Application>, author: Request, body: TrackBody,
                           now: int, reader: Request)
    requires author.user.Some? && reader.user.Some? && author.user.value.id != reader.user.value.id
    ensures var after := TrackApplication(schema, apps, author, body, now, None).apps;
            ListApplications(after, reader, None) == ListApplications(apps, reader, None)
  {
    var res := TrackApplication(schema, apps, author, body, now, None);
    if res.apps != apps {
      OwnedByAppend(apps, res.reply.value, reader.user.value.id);
    }
  }

  /** A tracked application shows up in its owner's list. */
  lemma TrackThenListShowsIt(schema: SchemaFile, apps: seq<Application>, req: Request, body: TrackBody, now: int)
    requires TrackApplication(schema, apps, req, body, now, None).reply.Json?
    ensures var res := TrackApplication(schema, apps, req, body, now, None);
            var listed := ListApplications(res.apps, req, None);
            listed.Json? && res.reply.value in listed.value
  {
    var res := TrackApplication(schema, apps, req, body, now, None);
    var a := res.reply.value;
    var listed := ListApplications(res.apps, req, None);
    assert multiset(res.apps)[a] > 0;
    assert multiset(listed.value)[a] > 0;
  }

  /** The same request served `n` times. */
  function TrackTimes(schema: SchemaFile, apps: seq<Application>, req: Request, body: TrackBody,
                      now: int, n: nat): (r: seq<Application>)
    ensures |r| <= |apps| + n
    // Tracking only ever appends.
    ensures apps <= r
    decreases n
  {
    if n == 0 then apps
    else TrackTimes(schema, TrackApplication(schema, apps, req, body, now, None).apps, req, body, now, n - 1)
  }

  /** Whether the handler accepts `body` from `req`: this depends on neither the store nor the clock. */
  predicate Accepts(schema: SchemaFile, req: Request, body: TrackBody) {
    && EnsureAuth(req) && req.user.Some?
    && Present(body.company) && Present(body.role)
    && StatusOrDefault(body.status) in Statuses(schema)
  }

  /** An accepted request adds exactly one record. */
  lemma AcceptedTrackAppendsOne(schema: SchemaFile, apps: seq<Application>, req: Request, body: TrackBody, now: int)
    requires Accepts(schema, req, body)
    ensures |TrackApplication(schema, apps, req, body, now, None).apps| == |apps| + 1
  {
    var first := TrackApplication(schema, apps, req, body, now, None);
    assert first.apps == apps + [first.reply.value];
  }

  lemma {:induction false} AcceptedTracksAddEach(schema: SchemaFile, apps: seq<Application>, req: Request,
                                                 body: TrackBody, now: int, n: nat)
    requires Accepts(schema, req, body)
    ensures |TrackTimes(schema, apps, req, body, now, n)| == |apps| + n
    decreases n
  {
    if n > 0 {
      AcceptedTrackAppendsOne(schema, apps, req, body, now);
      AcceptedTracksAddEach(schema, TrackApplication(schema, apps, req, body, now, None).apps, req, body, now, n - 1);
    }
  }

  /** There is no deduplication: when one request is accepted, `n` identical ones add `n` records. */
  lemma RepeatedTrackAddsEach(schema: SchemaFile, apps: seq<Application>, req: Request,
                              body: TrackBody, now: int, n: nat)
    requires TrackApplication(schema, apps, req, body, now, None).reply.Json?
    ensures |TrackTimes(schema, apps, req, body, now, n)| == |apps| + n
    ensures TrackTimes(schema, apps, req, body, now, n)[..|apps|] == apps
  {
    AcceptedTracksAddEach(schema, apps, req, body, now, n);
  }

  /** The `Wishlist` status is stored by the JavaScript route and refused with a 500 by the TypeScript one. */
  lemma WishlistDependsOnRoute(apps: seq<Application>, req: Request, body: TrackBody, now: int)
    requires EnsureAuth(req) && req.user.Some?
    requires Present(body.company) && Present(body.role) && body.status == Some("Wishlist")
    ensures TrackApplication(JsSchema, apps, req, body, now, None).reply.Json?
    ensures var ts := TrackApplication(TsSchema, apps, req, body, now, None);
            ts.apps == apps && ts.reply.Message? && ts.reply.status == 500
  {
    var draft := ApplicationDraft(Some(req.user.value.id), body.company, body.role, body.jobId,
                                  Some("Wishlist"), None, None, None);
    WishlistOnlyInJsSchema(draft, NextId(Ids(apps, (a: Application) => a.id)), now);
  }
}

=== FILE: auth.dfy ===
/**
 * Login and sessions from the server's entry point: the GitHub strategy's
 * find-or-create callback, the session (de)serialisation hooks, and
 * `/auth/user`. The OAuth exchange itself is outside the model: a login
 * starts from the provider's profile.
 */
module Auth {
  import opened Common
  import opened Models

  /** The parts of a GitHub profile the callback reads. */
  datatype GithubProfile = GithubProfile(
    id: string,
    username: Option<string>,
    displayName: Option<string>,
    photos: seq<string>,
    emails: Option<seq<string>>)

  /** The step of the callback that throws (with the error's message), if any. */
  datatype LoginFault = NoLoginFault | LookupFails(message: string) | SaveFails(message: string)

  /** The user collection after the callback, and the user handed to `done` or the error. */
  datatype LoginOutcome = LoginOutcome(users: seq<User>, user: Result<User>)

  /** The gates' refusal, answered with 401. */
  const Unauthorized: string := "Unauthorized"
  /** Reading `.id` of a missing `req.user`. */
  const MissingUser: string := "Cannot read properties of undefined (reading 'id')"

  /** Reading `.value` of a missing array element. */
  const MissingElement: string := "Cannot read properties of undefined (reading 'value')"

  /** `profile.emails ? profile.emails[0].value : ''`. */
  function PrimaryEmail(p: GithubProfile): (r: Result<string>)
    ensures r.Success? <==> p.emails.None? || p.emails.value != []
    ensures p.emails.None? ==> r == Success("")
    ensures p.emails.Some? && r.Success? ==> r.value == p.emails.value[0]
  {
    match p.emails
    case None => Success("")
    case Some(es) => if es == [] then Failure(MissingElement) else Success(es[0])
  }

  /** The GitHub strategy's verify callback at time `now`. */
  function FindOrCreate(users: seq<User>, p: GithubProfile, now: int, fault: LoginFault): (res: LoginOutcome)
    // A throwing lookup fails the login with its error and creates nothing.
    ensures fault.LookupFails? ==> res == LoginOutcome(users, Failure(fault.message))
    // A known GitHub id logs in as the stored user; nothing is created.
    ensures !fault.LookupFails? && FindUserByGithubId(users, p.id).Some? ==>
      res == LoginOutcome(users, Success(FindUserByGithubId(users, p.id).value))
    // Otherwise at most one user is created, from the profile, and it is the one logged in.
    ensures res.users == users || (
      && res.user.Success?
      && res.users == users + [res.user.value]
      && FindUserByGithubId(users, p.id).None?
      && res.user.value.githubId == p.id
      && Some(res.user.value.username) == p.username
      && p.photos != []
      && res.user.value.avatarUrl == Some(p.photos[0])
      && PrimaryEmail(p).Success?
      && res.user.value.email == Some(PrimaryEmail(p).value)
      && (forall v :: v in users ==> v.id != res.user.value.id)
      && res.user.value.resumeText.None?)
    ensures res.user.Failure? ==> res.users == users
    ensures res.user.Success? ==> res.user.value in res.users && res.user.value.githubId == p.id
    // A user is created exactly when the lookup misses, the profile yields a valid
    // user (a GitHub id, a username, a photo, a readable email) and the save goes through.
    ensures res.users != users <==>
      && fault.NoLoginFault?
      && FindUserByGithubId(users, p.id).None?
      && p.id != "" && Present(p.username)
      && p.photos != [] && PrimaryEmail(p).Success?
    // The created user is the profile saved under the schema, with its defaults (`createdAt` now, no skills or score).
    ensures res.users != users ==>
      BuildUser(UserDraft(Some(p.id), p.username, Some(PrimaryEmail(p).value), Some(p.photos[0])), res.user.value.id, now)
        == Success(res.user.value)
  {
    if fault.LookupFails? then LoginOutcome(users, Failure(fault.message))
    else match FindUserByGithubId(users, p.id)
      case Some(u) => LoginOutcome(users, Success(u))
      case None =>
        if p.photos == [] then LoginOutcome(users, Failure(MissingElement))
        else match PrimaryEmail(p)
          case Failure(e) => LoginOutcome(users, Failure(e))
          case Success(email) =>
            var draft := UserDraft(Some(p.id), p.username, Some(email), Some(p.photos[0]));
            match BuildUser(draft, NextId(Ids(users, (v: User) => v.id)), now)
            case Failure(e) => LoginOutcome(users, Failure(e))
            case Success(u) =>
              if fault.SaveFails? then LoginOutcome(users, Failure(fault.message))
              else LoginOutcome(users + [u], Success(u))
  }

  /** A login keeps `_id` and `githubId` unique across users. */
  lemma FindOrCreateKeepsUsersWellFormed(users: seq<User>, p: GithubProfile, now: int, fault: LoginFault)
    requires UsersWellFormed(users)
    ensures UsersWellFormed(FindOrCreate(users, p, now, fault).users)
  {
    var res := FindOrCreate(users, p, now, fault);
    if res.users != users {
      var u := res.user.value;
      var n := |users|;
      var after := res.users;
      assert after[n] == u;
      forall i | 0 <= i < n ensures after[i].id != u.id && after[i].githubId != u.githubId {
        assert after[i] == users[i];
        assert Ids(users, (v: User) => v.id)[i] == users[i].id;
        assert users[i] in users;
      }
      assert UserValid(u) by {
        assert u.githubId == p.id && u.username != "";
        assert p.id != "" by {
          var draft := UserDraft(Some(p.id), p.username, Some(u.email.value), Some(p.photos[0]));
          assert BuildUser(draft, u.id, now).Success?;
        }
      }
      forall i, j | 0 <= i < j < |after|
        ensures after[i].id != after[j].id && after[i].githubId != after[j].githubId
      {
        if j < n { assert after[i] == users[i] && after[j] == users[j]; }
      }
      forall i | 0 <= i < |after| ensures UserValid(after[i]) {
        if i < n { assert after[i] == users[i]; }
      }
    }
  }

  /** One OAuth callback. */
  datatype Login = Login(profile: GithubProfile, now: int, fault: LoginFault)

  /** The user collection after serving `logins` one after the other. */
  function LoginAll(users: seq<User>, logins: seq<Login>): (r: seq<User>)
    ensures |r| <= |users| + |logins|
    // Logins only ever append users.
    ensures users <= r
    decreases |logins|
  {
    if logins == [] then users
    else LoginAll(FindOrCreate(users, logins[0].profile, logins[0].now, logins[0].fault).users, logins[1..])
  }

  /** However many logins are served one by one, no two users share a GitHub id. */
  lemma {:induction false} LoginAllKeepsGithubIdsUnique(users: seq<User>, logins: seq<Login>)
    requires UsersWellFormed(users)
    ensures UsersWellFormed(LoginAll(users, logins))
    decreases |logins|
  {
    if logins != [] {
      var l := logins[0];
      FindOrCreateKeepsUsersWellFormed(users, l.profile, l.now, l.fault);
      LoginAllKeepsGithubIdsUnique(FindOrCreate(users, l.profile, l.now, l.fault).users, logins[1..]);
    }
  }

  /** A second login with the same profile finds the user the first one created. */
  lemma SecondLoginFindsSameUser(users: seq<User>, p: GithubProfile, now: int, later: int)
    requires FindOrCreate(users, p, now, NoLoginFault).user.Success?
    ensures var first := FindOrCreate(users, p, now, NoLoginFault);
            FindOrCreate(first.users, p, later, NoLoginFault) == first
  {
    var first := FindOrCreate(users, p, now, NoLoginFault);
    var u := first.user.value;
    if first.users != users {
      assert first.users == users + [u];
      var found := FindUserByGithubId(first.users, p.id);
      assert found.Some?;
      assert found.value !in users;
    } else {
      assert FindUserByGithubId(users, p.id) == Some(u);
    }
  }

  // ---------------------------------------------------------- Sessions

  /** `serializeUser`: the session keeps the user's id. */
  function SerializeUser(u: User): Id {
    u.id
  }

  /** `deserializeUser`: `User.findById(id)`; a vanished user resolves to nothing. */
  function DeserializeUser(users: seq<User>, id: Id): (r: Option<User>)
    ensures r.Some? ==> r.value in users && SerializeUser(r.value) == id
    ensures r.None? <==> forall u :: u in users ==> SerializeUser(u) != id
  {
    FindUserById(users, id)
  }

  /** Resolving a serialised session gives back the user who logged in. */
  lemma SessionRoundTrip(users: seq<User>, u: User)
    requires UsersWellFormed(users) && u in users
    ensures DeserializeUser(users, SerializeUser(u)) == Some(u)
  {
    FindStoredUser(users, u);
  }

  /**
   * The request state the session middleware hands to a route: whether
   * `req.isAuthenticated()` holds and the `req.user` it attached.
   */
  datatype Request = Request(isAuthenticated: bool, user: Option<User>)

  /**
   * The request built from a session holding `session`: the user is resolved
   * from the store, and the request counts as authenticated exactly when a
   * user was attached.
   */
  function RequestFor(users: seq<User>, session: Option<Id>): (req: Request)
    ensures req.isAuthenticated <==> req.user.Some?
    ensures req.user.Some? ==> session.Some? && req.user.value in users && req.user.value.id == session.value
    ensures session.Some? && (exists u :: u in users && u.id == session.value) ==> req.user.Some?
  {
    var user := if session.Some? then DeserializeUser(users, session.value) else None;
    Request(user.Some?, user)
  }

  /** `GET /auth/user`: `req.user || null`. */
  function CurrentUser(req: Request): Option<User> {
    req.user
  }

  /** After a successful login, the session it establishes makes `/auth/user` answer that user. */
  lemma LoginThenCurrentUser(users: seq<User>, p: GithubProfile, now: int)
    requires UsersWellFormed(users)
    requires FindOrCreate(users, p, now, NoLoginFault).user.Success?
    ensures var res := FindOrCreate(users, p, now, NoLoginFault);
            var req := RequestFor(res.users, Some(SerializeUser(res.user.value)));
            req.isAuthenticated && CurrentUser(req) == Some(res.user.value)
  {
    var res := FindOrCreate(users, p, now, NoLoginFault);
    FindOrCreateKeepsUsersWellFormed(users, p, now, NoLoginFault);
    SessionRoundTrip(res.users, res.user.value);
  }

  /** Without a session, `/auth/user` answers null. */
  lemma NoSessionNoUser(users: seq<User>)
    ensures CurrentUser(RequestFor(users, None)).None?
    ensures !RequestFor(users, None).isAuthenticated
  {
  }
}

=== FILE: common.dfy ===
/**
 * Shared vocabulary of the job-board model: optional values, fallible results,
 * HTTP replies, document ids and a subsequence relation.
 */
module Common {

  /** A value that may be absent (a JSON field left out, a lookup that found nothing). */
  datatype Option<T> = None | Some(value: T) {

    /** The carried value, or `default` when absent. */
    function GetOr(default: T): T {
      match this
      case Some(v) => v
      case None => default
    }
  }

  /** The outcome of an operation that may throw: a value, or the thrown error's message. */
  datatype Result<T> = Success(value: T) | Failure(error: string)

  /**
   * What an Express handler sends back: a JSON document, or a `{ message }` body,
   * each with its HTTP status code.
   */
  datatype Reply<T> = Json(status: int, value: T) | Message(status: int, message: string)

  /** A document id (a Mongo ObjectId, abstracted to a number). */
  type Id = nat

  /** The ids of `docs`, in order. */
  function Ids<T>(docs: seq<T>, id: T -> Id): (r: seq<Id>)
    ensures |r| == |docs|
    ensures forall i :: 0 <= i < |docs| ==> r[i] == id(docs[i])
  {
    seq(|docs|, i requires 0 <= i < |docs| => id(docs[i]))
  }

  /** An id that no document in `ids` carries: a fresh id, as minted for a new document. */
  function NextId(ids: seq<Id>): (r: Id)
    ensures forall i :: 0 <= i < |ids| ==> ids[i] < r
  {
    if ids == [] then 0
    else
      var rest := NextId(ids[1..]);
      if ids[0] < rest then rest else ids[0] + 1
  }

  /** `a` is obtained from `b` by deleting elements: order is kept. */
  ghost predicate SubsequenceOf<T>(a: seq<T>, b: seq<T>)
    decreases |b|
  {
    if a == [] then true
    else if b == [] then false
    else (a[0] == b[0] && SubsequenceOf(a[1..], b[1..])) || SubsequenceOf(a, b[1..])
  }
}

=== FILE: jobs.dfy ===
/**
 * The job listing route: a read-through cache in front of the "latest jobs"
 * query (`GET /api/jobs`) and a deduplicating submit that invalidates the cache
 * (`POST /api/jobs`). The job collection and the single cache key
 * `jobs:latest` form the state; the clock and every failing I/O step are
 * parameters.
 */
module JobsRoute {
  import opened Common
  import opened Models
  import opened Ordering

  /** Seconds a cached listing stays live (`EX: 3600`). */
  const CacheTtl: int := 3600
  /** Jobs per listing (`limit(50)`). */
  const ListingLimit: nat := 50

  /** The value under `jobs:latest` and the instant it expires. */
  datatype CacheEntry = CacheEntry(snapshot: seq<Job>, expiresAt: int)

  /** The job collection, in insertion order, and the cache key's content. */
  datatype Board = Board(jobs: seq<Job>, cache: Option<CacheEntry>)

  /** A `GET` of the key at `now` answers the entry (an expired key reads as absent). */
  predicate Live(cache: Option<CacheEntry>, now: int) {
    cache.Some? && now < cache.value.expiresAt
  }

  function PostedDate(j: Job): Option<int> {
    j.postedDate
  }

  /** What a fresh query must answer: the newest jobs of the store, newest first, at most 50. */
  ghost predicate IsLatest(r: seq<Job>, jobs: seq<Job>) {
    && |r| == (if |jobs| < ListingLimit then |jobs| else ListingLimit)
    && SortedDesc(r, PostedDate)
    && multiset(r) <= multiset(jobs)
    && (|jobs| <= ListingLimit ==> multiset(r) == multiset(jobs))
    && (forall x, y :: x in r && y in multiset(jobs) - multiset(r) ==> AtLeast(x.postedDate, y.postedDate))
  }

  /** `Job.find().sort({ postedDate: -1 }).limit(50)`. */
  function Latest(jobs: seq<Job>): (r: seq<Job>)
    ensures IsLatest(r, jobs)
  {
    TopN(jobs, PostedDate, ListingLimit)
  }

  // ------------------------------------------------------------- GET /

  /** The step of the read path that throws, if any. */
  datatype ReadFault = NoReadFault | CacheGetFails | StoreFindFails | CacheSetFails

  /** The new state, the reply, and whether the job collection was queried. */
  datatype ListOutcome = ListOutcome(board: Board, reply: Reply<seq<Job>>, queriedStore: bool)

  const ServerError: string := "Server Error"

  /** `GET /api/jobs` at time `now`. */
  function ListJobs(b: Board, now: int, fault: ReadFault): (res: ListOutcome)
    // A read never writes the job collection.
    ensures res.board.jobs == b.jobs
    // Any failure is a 500 `Server Error` and leaves the cache as it was.
    ensures res.reply.Message? ==> res.reply == Message(500, ServerError) && res.board == b
    ensures res.reply.Json? ==> res.reply.status == 200
    // Hit: exactly the cached list, no query, nothing changes.
    ensures !fault.CacheGetFails? && Live(b.cache, now) ==>
      res == ListOutcome(b, Json(200, b.cache.value.snapshot), false)
    // Miss: the latest jobs, stored under the key for one hour.
    ensures fault.NoReadFault? && !Live(b.cache, now) ==>
      && res.queriedStore
      && res.reply == Json(200, Latest(b.jobs))
      && res.board.cache == Some(CacheEntry(Latest(b.jobs), now + CacheTtl))
    // The reply fails exactly when the step that throws is reached.
    ensures res.reply.Json? <==> fault.NoReadFault? || (!fault.CacheGetFails? && Live(b.cache, now))
    ensures fault.CacheGetFails? ==> !res.queriedStore
  {
    if fault.CacheGetFails? then ListOutcome(b, Message(500, ServerError), false)
    else if Live(b.cache, now) then ListOutcome(b, Json(200, b.cache.value.snapshot), false)
    else if fault.StoreFindFails? then ListOutcome(b, Message(500, ServerError), true)
    else if fault.CacheSetFails? then ListOutcome(b, Message(500, ServerError), true)
    else
      var jobs := Latest(b.jobs);
      ListOutcome(Board(b.jobs, Some(CacheEntry(jobs, now + CacheTtl))), Json(200, jobs), true)
  }

  /**
   * Two reads within the hour and with no submit in between answer the same
   * list, and the second one does not query the store.
   */
  lemma RepeatedListingIsStable(b: Board, now: int, later: int)
    requires !Live(b.cache, now)
    requires now <= later < now + CacheTtl
    ensures var first := ListJobs(b, now, NoReadFault);
            var second := ListJobs(first.board, later, NoReadFault);
            && second.reply == first.reply
            && !second.queriedStore
            && second.board == first.board
  {
    var first := ListJobs(b, now, NoReadFault);
    assert Live(first.board.cache, later);
  }

  /** Once the hour is over the cached list is no longer served: the store is queried again. */
  lemma ExpiredListingIsRecomputed(b: Board, now: int, later: int)
    requires later >= now + CacheTtl
    requires !Live(b.cache, now)
    ensures var first := ListJobs(b, now, NoReadFault);
            var second := ListJobs(first.board, later, NoReadFault);
            && second.queriedStore
            && second.reply == Json(200, Latest(b.jobs))
  {
  }

  // ------------------------------------------------------------ POST /

  /** The step of the submit path that throws (with the error's message), if any. */
  datatype WriteFault =
    | NoWriteFault
    | FindOneFails(message: string)
    | SaveFails(message: string)
    | DelFails(message: string)

  datatype SubmitOutcome = SubmitOutcome(board: Board, reply: Reply<Job>)

  const AlreadyExists: string := "Job already exists"

  /**
   * `Job.findOne({ applyLink })` finds a match. A draft without a link is
   * looked up by a null link, which no stored (valid) job has.
   */
  predicate LinkTaken(jobs: seq<Job>, link: Option<string>) {
    link.Some? && exists j :: j in jobs && j.applyLink == link.value
  }

  /** No two stored jobs share an apply link. */
  ghost predicate DistinctLinks(jobs: seq<Job>) {
    forall i, j :: 0 <= i < j < |jobs| ==> jobs[i].applyLink != jobs[j].applyLink
  }

  /** Every stored job passed validation. */
  ghost predicate AllValid(jobs: seq<Job>) {
    forall i :: 0 <= i < |jobs| ==> JobValid(jobs[i])
  }

  /** `POST /api/jobs` with body `d` at time `now`. */
  function SubmitJob(b: Board, d: JobDraft, now: int, fault: WriteFault): (res: SubmitOutcome)
    // A link already stored: 200 `Job already exists`, nothing changes.
    ensures !fault.FindOneFails? && LinkTaken(b.jobs, d.applyLink) ==>
      res == SubmitOutcome(b, Message(200, AlreadyExists))
    // The store either stays as it was or gains exactly one valid job with a fresh link.
    ensures res.board.jobs == b.jobs || (
      && |res.board.jobs| == |b.jobs| + 1
      && res.board.jobs[..|b.jobs|] == b.jobs
      && JobValid(res.board.jobs[|b.jobs|])
      && Some(res.board.jobs[|b.jobs|].applyLink) == d.applyLink
      && !LinkTaken(b.jobs, d.applyLink)
      && forall j :: j in b.jobs ==> j.id != res.board.jobs[|b.jobs|].id)
    // Success: 201 with the created job, which was appended, and the cache is gone.
    ensures res.reply.Json? ==>
      && res.reply.status == 201
      && res.board == Board(b.jobs + [res.reply.value], None)
    ensures res.reply.Json? <==>
      fault == NoWriteFault && !LinkTaken(b.jobs, d.applyLink) && BuildJob(d, 0, now).Success?
    // The cache only ever changes by being deleted, and only by a successful submit.
    ensures res.board.cache != b.cache ==> res.reply.Json? && res.board.cache.None?
    // The job stored and returned is the body saved under a fresh id.
    ensures res.board.jobs != b.jobs ==>
      BuildJob(d, res.board.jobs[|b.jobs|].id, now) == Success(res.board.jobs[|b.jobs|])
    ensures res.reply.Json? ==> BuildJob(d, res.reply.value.id, now) == Success(res.reply.value)
    // An error is a 500 carrying the thrown message: the lookup's, the validation's, the save's or the delete's.
    ensures res.reply.Message? ==> res.reply.status in {200, 500}
    ensures fault.FindOneFails? ==> res == SubmitOutcome(b, Message(500, fault.message))
    ensures !fault.FindOneFails? && !LinkTaken(b.jobs, d.applyLink) && JobErrors(d) != [] ==>
      res == SubmitOutcome(b, Message(500, ValidationMessage("Job", JobErrors(d))))
    ensures fault.SaveFails? && !LinkTaken(b.jobs, d.applyLink) && JobErrors(d) == [] ==>
      res == SubmitOutcome(b, Message(500, fault.message))
    ensures fault.DelFails? && !LinkTaken(b.jobs, d.applyLink) && JobErrors(d) == [] ==>
      && res.reply == Message(500, fault.message)
      && res.board.cache == b.cache
      && |res.board.jobs| == |b.jobs| + 1
  {
    if fault.FindOneFails? then SubmitOutcome(b, Message(500, fault.message))
    else if LinkTaken(b.jobs, d.applyLink) then SubmitOutcome(b, Message(200, AlreadyExists))
    else
      var id := NextId(Ids(b.jobs, (j: Job) => j.id));
      match BuildJob(d, id, now)
      case Failure(e) => SubmitOutcome(b, Message(500, e))
      case Success(job) =>
        if fault.SaveFails? then SubmitOutcome(b, Message(500, fault.message))
        else
          var jobs := b.jobs + [job];
          assert jobs[..|b.jobs|] == b.jobs;
          if fault.DelFails? then SubmitOutcome(Board(jobs, b.cache), Message(500, fault.message))
          else SubmitOutcome(Board(jobs, None), Json(201, job))
  }

  /** A submit keeps the store free of duplicate links and of invalid jobs. */
  lemma SubmitKeepsStoreSound(b: Board, d: JobDraft, now: int, fault: WriteFault)
    requires DistinctLinks(b.jobs) && AllValid(b.jobs)
    ensures DistinctLinks(SubmitJob(b, d, now, fault).board.jobs)
    ensures AllValid(SubmitJob(b, d, now, fault).board.jobs)
  {
    var after := SubmitJob(b, d, now, fault).board.jobs;
    if after != b.jobs {
      var n := |b.jobs|;
      forall i, j | 0 <= i < j < |after| ensures after[i].applyLink != after[j].applyLink {
        if j == n {
          assert after[i] == b.jobs[i];
          assert after[i] in b.jobs;
        } else {
          assert after[i] == b.jobs[i] && after[j] == b.jobs[j];
        }
      }
      forall i | 0 <= i < |after| ensures JobValid(after[i]) {
        if i < n { assert after[i] == b.jobs[i]; }
      }
    }
  }

  /** One request to the job route. */
  datatype Submission = Submission(draft: JobDraft, now: int, fault: WriteFault)

  /** The state after serving `subs` one after the other. */
  function SubmitAll(b: Board, subs: seq<Submission>): (r: Board)
    ensures |r.jobs| <= |b.jobs| + |subs|
    // Submissions only ever append jobs.
    ensures b.jobs <= r.jobs
    decreases |subs|
  {
    if subs == [] then b
    else SubmitAll(SubmitJob(b, subs[0].draft, subs[0].now, subs[0].fault).board, subs[1..])
  }

  /** However many submits are served one by one, apply links stay pairwise distinct. */
  lemma {:induction false} SubmitAllKeepsLinksDistinct(b: Board, subs: seq<Submission>)
    requires DistinctLinks(b.jobs) && AllValid(b.jobs)
    ensures DistinctLinks(SubmitAll(b, subs).jobs) && AllValid(SubmitAll(b, subs).jobs)
    decreases |subs|
  {
    if subs != [] {
      SubmitKeepsStoreSound(b, subs[0].draft, subs[0].now, subs[0].fault);
      SubmitAllKeepsLinksDistinct(SubmitJob(b, subs[0].draft, subs[0].now, subs[0].fault).board, subs[1..]);
    }
  }

  /** Right after a successful submit the next read misses and answers from the grown store. */
  lemma SubmitThenListIsFresh(b: Board, d: JobDraft, now: int, later: int)
    requires SubmitJob(b, d, now, NoWriteFault).reply.Json?
    ensures var s := SubmitJob(b, d, now, NoWriteFault);
            var l := ListJobs(s.board, later, NoReadFault);
            && l.queriedStore
            && l.reply == Json(200, Latest(b.jobs + [s.reply.value]))
  {
  }

  /**
   * When deleting the key throws, the job is stored but the caller sees a 500
   * and a live cached listing keeps being served without it.
   */
  lemma FailedInvalidationServesStaleListing(b: Board, d: JobDraft, now: int, later: int, message: string)
    requires !LinkTaken(b.jobs, d.applyLink) && BuildJob(d, 0, now).Success?
    requires Live(b.cache, later)
    ensures var s := SubmitJob(b, d, now, DelFails(message));
            && s.reply == Message(500, message)
            && |s.board.jobs| == |b.jobs| + 1
            && ListJobs(s.board, later, NoReadFault).reply == Json(200, b.cache.value.snapshot)
  {
    var id := NextId(Ids(b.jobs, (j: Job) => j.id));
    assert BuildJob(d, id, now).Success?;
  }

  /** Resubmitting a job that was just accepted is answered `Job already exists` and changes nothing. */
  lemma ResubmitIsDeduplicated(b: Board, d: JobDraft, now: int, again: int)
    requires SubmitJob(b, d, now, NoWriteFault).reply.Json?
    ensures var s := SubmitJob(b, d, now, NoWriteFault);
            SubmitJob(s.board, d, again, NoWriteFault) == SubmitOutcome(s.board, Message(200, AlreadyExists))
  {
    var s := SubmitJob(b, d, now, NoWriteFault);
    var job := s.reply.value;
    assert job in s.board.jobs;
    assert LinkTaken(s.board.jobs, d.applyLink);
  }
}

=== FILE: models.dfy ===
/**
 * The three document schemas (Job, Application, User) as record types, and
 * what saving a new document does with its fields: `required` checks, the
 * status enumeration, defaults, and dropping fields the schema does not
 * declare. Building a document either yields the stored record or the
 * validation error's message.
 */
module Models {
  import opened Common
  import Text

  /** A `required` String path: present and not the empty string. */
  predicate Present(v: Option<string>) {
    v.Some? && v.value != ""
  }

  /** One failed path check of a validation run. */
  datatype FieldError = Required(path: string) | NotInEnum(path: string, value: string)

  function FieldErrorText(e: FieldError): string {
    match e
    case Required(p) => p + ": Path `" + p + "` is required."
    case NotInEnum(p, v) => p + ": `" + v + "` is not a valid enum value for path `" + p + "`."
  }

  function FieldErrorTexts(es: seq<FieldError>): (r: seq<string>)
    ensures |r| == |es|
    ensures forall i :: 0 <= i < |es| ==> r[i] == FieldErrorText(es[i])
  {
    if es == [] then [] else [FieldErrorText(es[0])] + FieldErrorTexts(es[1..])
  }

  /** The message a failed save throws: `<Model> validation failed: <path>: <why>, ...`. */
  function ValidationMessage(model: string, es: seq<FieldError>): string {
    model + " validation failed: " + Text.Join(FieldErrorTexts(es), ", ")
  }

  function MissingIfAbsent(path: string, v: Option<string>): (r: seq<FieldError>)
    ensures r == [] <==> Present(v)
  {
    if Present(v) then [] else [Required(path)]
  }

  // ---------------------------------------------------------------- Job

  /** A stored job listing. */
  datatype Job = Job(
    id: Id,
    title: string,
    company: string,
    location: Option<string>,
    description: Option<string>,
    applyLink: string,
    source: Option<string>,
    postedDate: Option<int>,
    scrapedAt: int,
    tags: seq<string>)

  /** The fields a client may send when submitting a job; any may be missing. */
  datatype JobDraft = JobDraft(
    title: Option<string>,
    company: Option<string>,
    location: Option<string>,
    description: Option<string>,
    applyLink: Option<string>,
    source: Option<string>,
    postedDate: Option<int>,
    scrapedAt: Option<int>,
    tags: Option<seq<string>>)

  predicate JobValid(j: Job) {
    j.title != "" && j.company != "" && j.applyLink != ""
  }

  function JobErrors(d: JobDraft): seq<FieldError> {
    MissingIfAbsent("title", d.title)
      + MissingIfAbsent("company", d.company)
      + MissingIfAbsent("applyLink", d.applyLink)
  }

  /** `new Job(draft).save()` with the store-assigned `id`, at time `now`. */
  function BuildJob(d: JobDraft, id: Id, now: int): (r: Result<Job>)
    ensures r.Success? <==> Present(d.title) && Present(d.company) && Present(d.applyLink)
    ensures r.Success? ==> JobValid(r.value)
    ensures r.Success? ==>
      && r.value.id == id
      && Some(r.value.title) == d.title
      && Some(r.value.company) == d.company
      && Some(r.value.applyLink) == d.applyLink
      && r.value.location == d.location
      && r.value.description == d.description
      && r.value.source == d.source
      && r.value.postedDate == d.postedDate
    ensures r.Success? && d.scrapedAt.None? ==> r.value.scrapedAt == now
    ensures r.Success? && d.scrapedAt.Some? ==> r.value.scrapedAt == d.scrapedAt.value
    ensures r.Success? && d.tags.None? ==> r.value.tags == []
    ensures r.Success? && d.tags.Some? ==> r.value.tags == d.tags.value
    ensures r.Failure? ==> JobErrors(d) != [] && r.error == ValidationMessage("Job", JobErrors(d))
  {
    var errors := JobErrors(d);
    if errors != [] then Failure(ValidationMessage("Job", errors))
    else
      Success(Job(id, d.title.value, d.company.value, d.location, d.description,
                  d.applyLink.value, d.source, d.postedDate, d.scrapedAt.GetOr(now), d.tags.GetOr([])))
  }

  /**
   * The schema does not make the apply link unique: the same draft saved
   * twice yields two valid jobs with one link. Deduplication is the route's.
   */
  lemma SchemaAllowsDuplicateLinks(d: JobDraft, first: Id, second: Id, now: int)
    requires BuildJob(d, first, now).Success?
    ensures BuildJob(d, second, now).Success?
    ensures BuildJob(d, first, now).value.applyLink == BuildJob(d, second, now).value.applyLink
  {
  }

  // -------------------------------------------------------- Application

  /** Which of the two Application schema files a route is bound to. */
  datatype SchemaFile = JsSchema | TsSchema

  /** The status enumeration of each schema file; only the JavaScript one has `Wishlist`. */
  function Statuses(schema: SchemaFile): seq<string> {
    match schema
    case JsSchema => ["Applied", "Interview", "Offer", "Rejected", "Wishlist"]
    case TsSchema => ["Applied", "Interview", "Offer", "Rejected"]
  }

  const DefaultStatus: string := "Applied"

  /** A tracked application. `notes` and `predictionScore` exist only in the JavaScript schema. */
  datatype Application = Application(
    id: Id,
    userId: Id,
    company: string,
    role: string,
    jobId: Option<Id>,
    status: string,
    appliedDate: int,
    notes: Option<string>,
    predictionScore: Option<real>)

  datatype ApplicationDraft = ApplicationDraft(
    userId: Option<Id>,
    company: Option<string>,
    role: Option<string>,
    jobId: Option<Id>,
    status: Option<string>,
    appliedDate: Option<int>,
    notes: Option<string>,
    predictionScore: Option<real>)

  predicate ApplicationValid(schema: SchemaFile, a: Application) {
    a.company != "" && a.role != "" && a.status in Statuses(schema)
  }

  function ApplicationErrors(schema: SchemaFile, d: ApplicationDraft): seq<FieldError> {
    var status := d.status.GetOr(DefaultStatus);
    (if d.userId.None? then [Required("userId")] else [])
      + MissingIfAbsent("company", d.company)
      + MissingIfAbsent("role", d.role)
      + (if status in Statuses(schema) then [] else [NotInEnum("status", status)])
  }

  /** `new Application(draft).save()` against the given schema file. */
  function BuildApplication(schema: SchemaFile, d: ApplicationDraft, id: Id, now: int): (r: Result<Application>)
    ensures r.Success? <==>
      d.userId.Some? && Present(d.company) && Present(d.role) && d.status.GetOr(DefaultStatus) in Statuses(schema)
    ensures r.Success? ==> ApplicationValid(schema, r.value)
    ensures r.Success? ==>
      && r.value.id == id
      && Some(r.value.userId) == d.userId
      && Some(r.value.company) == d.company
      && Some(r.value.role) == d.role
      && r.value.jobId == d.jobId
    ensures r.Success? && d.status.None? ==> r.value.status == DefaultStatus
    ensures r.Success? && d.status.Some? ==> r.value.status == d.status.value
    ensures r.Success? && d.appliedDate.None? ==> r.value.appliedDate == now
    ensures r.Success? && d.appliedDate.Some? ==> r.value.appliedDate == d.appliedDate.value
    ensures r.Success? && schema == JsSchema ==> r.value.notes == d.notes && r.value.predictionScore == d.predictionScore
    ensures r.Success? && schema == TsSchema ==> r.value.notes.None? && r.value.predictionScore.None?
    ensures r.Failure? ==> r.error == ValidationMessage("Application", ApplicationErrors(schema, d))
  {
    var errors := ApplicationErrors(schema, d);
    if errors != [] then Failure(ValidationMessage("Application", errors))
    else
      var keepsExtras := schema == JsSchema;
      Success(Application(id, d.userId.value, d.company.value, d.role.value, d.jobId,
                          d.status.GetOr(DefaultStatus), d.appliedDate.GetOr(now),
                          if keepsExtras then d.notes else None,
                          if keepsExtras then d.predictionScore else None))
  }

  /** `Wishlist` is the one status the two schema files disagree on. */
  lemma WishlistOnlyInJsSchema(d: ApplicationDraft, id: Id, now: int)
    requires d.userId.Some? && Present(d.company) && Present(d.role)
    requires d.status == Some("Wishlist")
    ensures BuildApplication(JsSchema, d, id, now).Success?
    ensures BuildApplication(TsSchema, d, id, now).Failure?
  {
    assert "Wishlist" != "Applied" && "Wishlist" != "Interview";
    assert "Wishlist" != "Offer" && "Wishlist" != "Rejected";
    assert "Wishlist" !in Statuses(TsSchema);
  }

  /** Every status the TypeScript schema accepts, the JavaScript schema accepts too. */
  lemma TsStatusesWithinJs(s: string)
    ensures s in Statuses(TsSchema) ==> s in Statuses(JsSchema)
  {
  }

  // --------------------------------------------------------------- User

  /** A registered user. A field the schema does not declare (display name, upload time) is never stored. */
  datatype User = User(
    id: Id,
    githubId: string,
    username: string,
    email: Option<string>,
    avatarUrl: Option<string>,
    resumeText: Option<string>,
    resumeScore: Option<real>,
    skills: seq<string>,
    createdAt: int)

  datatype UserDraft = UserDraft(
    githubId: Option<string>,
    username: Option<string>,
    email: Option<string>,
    avatarUrl: Option<string>)

  predicate UserValid(u: User) {
    u.githubId != "" && u.username != ""
  }

  function UserErrors(d: UserDraft): seq<FieldError> {
    MissingIfAbsent("githubId", d.githubId) + MissingIfAbsent("username", d.username)
  }

  /** `new User(draft).save()`: a new user has no resume, no score and no skills yet. */
  function BuildUser(d: UserDraft, id: Id, now: int): (r: Result<User>)
    ensures r.Success? <==> Present(d.githubId) && Present(d.username)
    ensures r.Success? ==> UserValid(r.value)
    ensures r.Success? ==>
      && r.value.id == id
      && Some(r.value.githubId) == d.githubId
      && Some(r.value.username) == d.username
      && r.value.email == d.email
      && r.value.avatarUrl == d.avatarUrl
      && r.value.resumeText.None?
      && r.value.resumeScore.None?
      && r.value.skills == []
      && r.value.createdAt == now
    ensures r.Failure? ==> r.error == ValidationMessage("User", UserErrors(d))
  {
    var errors := UserErrors(d);
    if errors != [] then Failure(ValidationMessage("User", errors))
    else Success(User(id, d.githubId.value, d.username.value, d.email, d.avatarUrl, None, None, [], now))
  }

  /** The user collection's indexes hold: `_id` and `githubId` are each unique, and every record is valid. */
  ghost predicate UsersWellFormed(users: seq<User>) {
    && (forall i, j :: 0 <= i < j < |users| ==> users[i].id != users[j].id)
    && (forall i, j :: 0 <= i < j < |users| ==> users[i].githubId != users[j].githubId)
    && (forall i :: 0 <= i < |users| ==> UserValid(users[i]))
  }

  /** `User.findById(id)`: the first record with that id, or null. */
  function FindUserById(users: seq<User>, id: Id): (r: Option<User>)
    ensures r.Some? ==> r.value in users && r.value.id == id
    ensures r.None? <==> forall u :: u in users ==> u.id != id
  {
    if users == [] then None
    else if users[0].id == id then Some(users[0])
    else FindUserById(users[1..], id)
  }

  /** `User.findOne({ githubId })`: the first record with that GitHub id, or null. */
  function FindUserByGithubId(users: seq<User>, githubId: string): (r: Option<User>)
    ensures r.Some? ==> r.value in users && r.value.githubId == githubId
    ensures r.None? <==> forall u :: u in users ==> u.githubId != githubId
  {
    if users == [] then None
    else if users[0].githubId == githubId then Some(users[0])
    else FindUserByGithubId(users[1..], githubId)
  }

  /** With unique GitHub ids, looking up a stored user's GitHub id finds that very user. */
  lemma FindStoredGithubUser(users: seq<User>, u: User)
    requires UsersWellFormed(users) && u in users
    ensures FindUserByGithubId(users, u.githubId) == Some(u)
  {
    var r := FindUserByGithubId(users, u.githubId);
    var i :| 0 <= i < |users| && users[i] == u;
    var j :| 0 <= j < |users| && users[j] == r.value;
    assert i == j;
  }

  /** With unique ids, looking up a stored user's id finds that very user. */
  lemma FindStoredUser(users: seq<User>, u: User)
    requires UsersWellFormed(users) && u in users
    ensures FindUserById(users, u.id) == Some(u)
  {
    var r := FindUserById(users, u.id);
    var i :| 0 <= i < |users| && users[i] == u;
    var j :| 0 <= j < |users| && users[j] == r.value;
    assert i == j;
  }
}

=== FILE: ordering.dfy ===
/**
 * Mongo's `sort({ field: -1 })` on a date field that may be missing, and
 * `limit(n)` after it. A document without the field sorts after every document
 * that has it. Ties keep store order (Mongo leaves them unspecified; any fixed
 * choice keeps identical queries answering identically).
 */
module Ordering {
  import opened Common

  /** `a` sorts no later than `b` in descending order; an absent date is the least. */
  predicate AtLeast(a: Option<int>, b: Option<int>) {
    match b
    case None => true
    case Some(y) => a.Some? && a.value >= y
  }

  /** Non-increasing by `key`. */
  ghost predicate SortedDesc<T>(s: seq<T>, key: T -> Option<int>) {
    forall i, j :: 0 <= i < j < |s| ==> AtLeast(key(s[i]), key(s[j]))
  }

  /** Every element of `s` sorts no earlier than `x`. */
  ghost predicate Heads<T>(x: T, s: seq<T>, key: T -> Option<int>) {
    forall y :: y in s ==> AtLeast(key(x), key(y))
  }

  lemma ConsSorted<T>(h: T, t: seq<T>, key: T -> Option<int>)
    requires SortedDesc(t, key) && Heads(h, t, key)
    ensures SortedDesc([h] + t, key)
  {
    var s := [h] + t;
    forall i, j | 0 <= i < j < |s|
      ensures AtLeast(key(s[i]), key(s[j]))
    {
      if i > 0 {
        assert s[i] == t[i - 1] && s[j] == t[j - 1];
      } else {
        assert s[j] == t[j - 1];
        assert s[j] in t;
      }
    }
  }

  /** Places `x` in front of the first element it does not sort after. */
  function Insert<T>(x: T, s: seq<T>, key: T -> Option<int>): (r: seq<T>)
    requires SortedDesc(s, key)
    ensures SortedDesc(r, key)
    ensures multiset(r) == multiset(s) + multiset{x}
    ensures forall y :: y in r ==> y == x || y in s
    ensures |r| == |s| + 1
  {
    if s == [] then [x]
    else if AtLeast(key(x), key(s[0])) then
      assert Heads(x, s, key) by {
        forall y | y in s ensures AtLeast(key(x), key(y)) {
          var k :| 0 <= k < |s| && s[k] == y;
          if k > 0 { assert AtLeast(key(s[0]), key(s[k])); }
        }
      }
      ConsSorted(x, s, key);
      [x] + s
    else
      var tail := s[1..];
      assert SortedDesc(tail, key) by {
        forall i, j | 0 <= i < j < |tail| ensures AtLeast(key(tail[i]), key(tail[j])) {
          assert tail[i] == s[i + 1] && tail[j] == s[j + 1];
        }
      }
      var rest := Insert(x, tail, key);
      assert Heads(s[0], rest, key) by {
        forall y | y in rest ensures AtLeast(key(s[0]), key(y)) {
          if y != x {
            var k :| 0 <= k < |tail| && tail[k] == y;
            assert tail[k] == s[k + 1];
          }
        }
      }
      ConsSorted(s[0], rest, key);
      assert s == [s[0]] + tail;
      [s[0]] + rest
  }

  /** Stable descending insertion sort. */
  function SortDesc<T>(s: seq<T>, key: T -> Option<int>): (r: seq<T>)
    ensures SortedDesc(r, key)
    ensures multiset(r) == multiset(s)
    ensures |r| == |s|
  {
    if s == [] then []
    else
      assert s == [s[0]] + s[1..];
      Insert(s[0], SortDesc(s[1..], key), key)
  }

  /** In a sorted sequence every element before a cut sorts no later than every one after it. */
  lemma CutDominates<T>(t: seq<T>, key: T -> Option<int>, m: nat)
    requires SortedDesc(t, key) && m <= |t|
    ensures SortedDesc(t[..m], key)
    ensures forall x, y :: x in t[..m] && y in t[m..] ==> AtLeast(key(x), key(y))
  {
    var p := t[..m];
    forall i, j | 0 <= i < j < |p| ensures AtLeast(key(p[i]), key(p[j])) {
      assert p[i] == t[i] && p[j] == t[j];
    }
    forall x, y | x in p && y in t[m..] ensures AtLeast(key(x), key(y)) {
      var i :| 0 <= i < m && p[i] == x;
      var k :| 0 <= k < |t| - m && t[m..][k] == y;
      assert t[i] == x && t[m + k] == y;
    }
  }

  /** The `n` greatest elements by `key`, greatest first: `sort(-1).limit(n)`. */
  function TopN<T>(s: seq<T>, key: T -> Option<int>, n: nat): (r: seq<T>)
    ensures |r| == if |s| < n then |s| else n
    ensures SortedDesc(r, key)
    ensures multiset(r) <= multiset(s)
    ensures |s| <= n ==> multiset(r) == multiset(s)
    ensures forall x, y :: x in r && y in multiset(s) - multiset(r) ==> AtLeast(key(x), key(y))
  {
    var t := SortDesc(s, key);
    var m := if |s| < n then |s| else n;
    CutDominates(t, key, m);
    assert t == t[..m] + t[m..];
    assert multiset(s) - multiset(t[..m]) == multiset(t[m..]);
    t[..m]
  }
}

=== FILE: scorer.dfy ===
/**
 * The resume analyser's keyword scorer, shared by its two endpoints (resume
 * given as an uploaded file, resume given as text): which known technologies
 * the job description asks for, which of them the resume mentions, the match
 * ratio, the shortlist probability and the suggestions. Arithmetic is exact
 * (over `real`), and lower-casing is ASCII only.
 */
module Scorer {
  import opened Common
  import opened Text

  /** The fixed keyword list, in the order the analyser scans it. */
  const CommonTech: seq<string> := ["python", "javascript", "react", "node", "sql", "aws", "docker",
                                    "kubernetes", "system design", "java", "c++", "typescript", "git"]

  /** The keywords of `keywords`, in order, that occur in `jdLower`. */
  function Targets(jdLower: string, keywords: seq<string>): (r: seq<string>)
    ensures SubsequenceOf(r, keywords)
    ensures forall k :: k in r <==> k in keywords && Contains(jdLower, k)
  {
    if keywords == [] then []
    else
      var rest := Targets(jdLower, keywords[1..]);
      assert forall k :: k in keywords <==> k == keywords[0] || k in keywords[1..];
      if Contains(jdLower, keywords[0]) then [keywords[0]] + rest else rest
  }

  /** The targets split by presence in the resume, each half in target order. */
  datatype Split = Split(found: seq<string>, missing: seq<string>)

  function Partition(targets: seq<string>, resumeLower: string): (r: Split)
    ensures SubsequenceOf(r.found, targets) && SubsequenceOf(r.missing, targets)
    ensures multiset(r.found) + multiset(r.missing) == multiset(targets)
    ensures |r.found| + |r.missing| == |targets|
    ensures forall k :: k in r.found ==> Contains(resumeLower, k)
    ensures forall k :: k in r.missing ==> !Contains(resumeLower, k)
    ensures forall k :: k in targets <==> k in r.found || k in r.missing
  {
    if targets == [] then Split([], [])
    else
      var rest := Partition(targets[1..], resumeLower);
      var k := targets[0];
      assert targets == [k] + targets[1..];
      if Contains(resumeLower, k) then Split([k] + rest.found, rest.missing)
      else Split(rest.found, [k] + rest.missing)
  }

  /** `len(found) / len(targets)`, or one half when the description names no known keyword. */
  function MatchRatio(found: nat, targets: nat): (r: real)
    ensures targets == 0 ==> r == 0.5
    ensures targets > 0 ==> r * (targets as real) == found as real
    ensures found <= targets ==> 0.0 <= r <= 1.0
  {
    if targets == 0 then 0.5 else (found as real) / (targets as real)
  }

  /** `min(0.1 + ratio * 0.8, 0.98)`. */
  function Probability(ratio: real): (p: real)
    ensures p <= 0.98
    ensures p <= 0.1 + ratio * 0.8
    ensures p == 0.98 || p == 0.1 + ratio * 0.8
  {
    var raw := 0.1 + ratio * 0.8;
    if raw < 0.98 then raw else 0.98
  }

  /** For a ratio in [0, 1] the cap never applies and the probability lies in [0.1, 0.9]. */
  lemma ProbabilityBounds(ratio: real)
    requires 0.0 <= ratio <= 1.0
    ensures Probability(ratio) == 0.1 + ratio * 0.8
    ensures 0.1 <= Probability(ratio) <= 0.9
  {
  }

  /** Everything the two endpoints compute alike. */
  datatype Analysis = Analysis(targets: seq<string>, split: Split, ratio: real, probability: real)

  function Analyze(resumeText: string, jobDescription: string): (a: Analysis)
    ensures forall k :: k in a.targets <==> k in CommonTech && Contains(Lower(jobDescription), k)
    ensures SubsequenceOf(a.targets, CommonTech)
    ensures multiset(a.split.found) + multiset(a.split.missing) == multiset(a.targets)
    // Both halves keep the keyword list's order, which `missing_keywords[:3]` depends on.
    ensures SubsequenceOf(a.split.found, a.targets) && SubsequenceOf(a.split.missing, a.targets)
    ensures forall k :: k in a.split.found ==> Contains(Lower(resumeText), k)
    ensures forall k :: k in a.split.missing ==> !Contains(Lower(resumeText), k)
    ensures 0.0 <= a.ratio <= 1.0
    ensures 0.1 <= a.probability <= 0.9
    ensures a.ratio == MatchRatio(|a.split.found|, |a.targets|)
    ensures a.probability == 0.1 + a.ratio * 0.8
    // A keyword is missing exactly when it is known, asked for, and absent from the resume.
    ensures forall k :: k in a.split.missing <==>
      k in CommonTech && Contains(Lower(jobDescription), k) && !Contains(Lower(resumeText), k)
  {
    var targets := Targets(Lower(jobDescription), CommonTech);
    var split := Partition(targets, Lower(resumeText));
    var ratio := MatchRatio(|split.found|, |targets|);
    ProbabilityBounds(ratio);
    Analysis(targets, split, ratio, Probability(ratio))
  }

  lemma MulMono(a: real, b: real, c: real)
    requires c > 0.0
    ensures a < b ==> a * c < b * c
    ensures a <= b ==> a * c <= b * c
  {
  }

  /** A quotient is below one half exactly when twice the numerator is below the denominator. */
  lemma HalfOfQuotient(f: real, n: real)
    requires n > 0.0
    ensures f / n < 0.5 <==> 2.0 * f < n
  {
    var q := f / n;
    assert q * n == f;
    if q < 0.5 {
      MulMono(q, 0.5, n);
    } else {
      MulMono(0.5, q, n);
    }
  }

  /** A ratio of counts is below one half exactly when twice the found count is below the target count. */
  lemma HalfThreshold(found: nat, targets: nat)
    requires targets > 0
    ensures MatchRatio(found, targets) < 0.5 <==> 2 * found < targets
  {
    HalfOfQuotient(found as real, targets as real);
    assert (2 * found) as real == 2.0 * (found as real);
  }

  /** The probability falls below one half exactly when fewer than half the targets are found. */
  lemma LowProbabilityIffFewFound(resumeText: string, jobDescription: string)
    ensures var a := Analyze(resumeText, jobDescription);
            a.probability < 0.5 <==> a.targets != [] && 2 * |a.split.found| < |a.targets|
  {
    var a := Analyze(resumeText, jobDescription);
    ProbabilityBounds(a.ratio);
    if a.targets != [] {
      HalfThreshold(|a.split.found|, |a.targets|);
    }
  }

  /** Describing JavaScript also targets Java, since matching is by substring. */
  lemma JavascriptTargetsJava(resumeText: string, jobDescription: string)
    requires Contains(Lower(jobDescription), "javascript")
    ensures "java" in Analyze(resumeText, jobDescription).targets
  {
    ContainsPrefix(Lower(jobDescription), "javascript", 4);
    assert "javascript"[..4] == "java";
    assert "java" in CommonTech;
  }

  // ------------------------------------------------------- Suggestions

  /** The kinds of suggestion the endpoints give. */
  datatype Advice = AddSkills(skills: seq<string>) | Elaborate | Quantify | FixFormatting

  /** `missing[:3]`. */
  function FirstThree(missing: seq<string>): (r: seq<string>)
    ensures |r| == if |missing| < 3 then |missing| else 3
    ensures r == missing[..|r|]
  {
    if |missing| <= 3 then missing else missing[..3]
  }

  const ShortResumeLength: nat := 500

  function NeedsQuantifying(resumeLower: string): bool {
    !Contains(resumeLower, "quantified") && !Contains(resumeLower, "%")
  }

  /** One suggestion slot: `[adv]` when its condition holds, nothing otherwise. */
  function When(cond: bool, adv: Advice): (r: seq<Advice>)
    ensures adv in r <==> cond
    ensures forall y :: y in r ==> y == adv
  {
    if cond then [adv] else []
  }

  /** A slot put in front of advice that keeps to `slots` keeps to `[adv] + slots`. */
  lemma WhenInOrder(cond: bool, adv: Advice, rest: seq<Advice>, slots: seq<Advice>)
    requires SubsequenceOf(rest, slots)
    ensures SubsequenceOf(When(cond, adv) + rest, [adv] + slots)
  {
    var r := When(cond, adv) + rest;
    assert ([adv] + slots)[1..] == slots;
    if cond {
      assert r[0] == adv && r[1..] == rest;
    } else {
      assert r == rest;
    }
  }

  /** Three slots filled in order keep to the order of their kinds, each at most once. */
  lemma {:induction false} ThreeSlotsInOrder(c1: bool, x1: Advice, c2: bool, x2: Advice, c3: bool, x3: Advice)
    ensures SubsequenceOf(When(c1, x1) + (When(c2, x2) + When(c3, x3)), [x1, x2, x3])
  {
    WhenInOrder(c3, x3, [], []);
    assert When(c3, x3) + [] == When(c3, x3) && [x3] + [] == [x3];
    WhenInOrder(c2, x2, When(c3, x3), [x3]);
    WhenInOrder(c1, x1, When(c2, x2) + When(c3, x3), [x2] + [x3]);
    assert [x1] + ([x2] + [x3]) == [x1, x2, x3];
  }

  /** Four slots filled in order keep to the order of their kinds, each at most once. */
  lemma {:induction false} FourSlotsInOrder(c1: bool, x1: Advice, c2: bool, x2: Advice,
                                            c3: bool, x3: Advice, c4: bool, x4: Advice)
    ensures SubsequenceOf(When(c1, x1) + (When(c2, x2) + (When(c3, x3) + When(c4, x4))), [x1, x2, x3, x4])
  {
    ThreeSlotsInOrder(c2, x2, c3, x3, c4, x4);
    WhenInOrder(c1, x1, When(c2, x2) + (When(c3, x3) + When(c4, x4)), [x2, x3, x4]);
    assert [x1] + [x2, x3, x4] == [x1, x2, x3, x4];
  }

  /**
   * Four suggestion slots filled in order: the kinds whose condition holds,
   * each once, in slot order.
   */
  function Arrange4(c1: bool, x1: Advice, c2: bool, x2: Advice, c3: bool, x3: Advice, c4: bool, x4: Advice): (r: seq<Advice>)
    ensures forall y :: y in r <==> (c1 && y == x1) || (c2 && y == x2) || (c3 && y == x3) || (c4 && y == x4)
    ensures SubsequenceOf(r, [x1, x2, x3, x4])
  {
    FourSlotsInOrder(c1, x1, c2, x2, c3, x3, c4, x4);
    When(c1, x1) + (When(c2, x2) + (When(c3, x3) + When(c4, x4)))
  }

  /** Three suggestion slots filled in order. */
  function Arrange3(c1: bool, x1: Advice, c2: bool, x2: Advice, c3: bool, x3: Advice): (r: seq<Advice>)
    ensures forall y :: y in r <==> (c1 && y == x1) || (c2 && y == x2) || (c3 && y == x3)
    ensures SubsequenceOf(r, [x1, x2, x3])
  {
    ThreeSlotsInOrder(c1, x1, c2, x2, c3, x3);
    When(c1, x1) + (When(c2, x2) + When(c3, x3))
  }

  /** The advice of the file endpoint, in order: skills, length, quantification, score. */
  function FileAdvice(resumeText: string, a: Analysis): (r: seq<Advice>)
    ensures (exists s :: AddSkills(s) in r) <==> a.split.missing != []
    ensures forall s :: AddSkills(s) in r ==> s == FirstThree(a.split.missing)
    ensures Elaborate in r <==> |resumeText| < ShortResumeLength
    ensures Quantify in r <==> NeedsQuantifying(Lower(resumeText))
    ensures FixFormatting in r <==> a.probability < 0.5
    // Each kind at most once, in the order the endpoint appends them.
    ensures SubsequenceOf(r, [AddSkills(FirstThree(a.split.missing)), Elaborate, Quantify, FixFormatting])
  {
    var skill := AddSkills(FirstThree(a.split.missing));
    var r := Arrange4(a.split.missing != [], skill,
                      |resumeText| < ShortResumeLength, Elaborate,
                      NeedsQuantifying(Lower(resumeText)), Quantify,
                      a.probability < 0.5, FixFormatting);
    assert a.split.missing != [] ==> skill in r;
    r
  }

  /** The advice of the text endpoint: the same rules without the quantification check. */
  function TextAdvice(resumeText: string, a: Analysis): (r: seq<Advice>)
    ensures (exists s :: AddSkills(s) in r) <==> a.split.missing != []
    ensures forall s :: AddSkills(s) in r ==> s == FirstThree(a.split.missing)
    ensures Elaborate in r <==> |resumeText| < ShortResumeLength
    ensures Quantify !in r
    ensures FixFormatting in r <==> a.probability < 0.5
    ensures SubsequenceOf(r, [AddSkills(FirstThree(a.split.missing)), Elaborate, FixFormatting])
  {
    var skill := AddSkills(FirstThree(a.split.missing));
    var r := Arrange3(a.split.missing != [], skill,
                      |resumeText| < ShortResumeLength, Elaborate,
                      a.probability < 0.5, FixFormatting);
    assert a.split.missing != [] ==> skill in r;
    r
  }

  /** The text endpoint's advice is the file endpoint's without the quantification hint. */
  lemma {:induction false} TextAdviceOmitsOnlyQuantify(resumeText: string, a: Analysis)
    ensures TextAdvice(resumeText, a) == Without(FileAdvice(resumeText, a), Quantify)
  {
    var skills := When(a.split.missing != [], AddSkills(FirstThree(a.split.missing)));
    var elaborate := When(|resumeText| < ShortResumeLength, Elaborate);
    var quantify := When(NeedsQuantifying(Lower(resumeText)), Quantify);
    var format := When(a.probability < 0.5, FixFormatting);
    WithoutConcat(quantify, format, Quantify);
    WithoutConcat(elaborate, quantify + format, Quantify);
    WithoutConcat(skills, elaborate + (quantify + format), Quantify);
    WithoutNone(skills, Quantify);
    WithoutNone(elaborate, Quantify);
    WithoutNone(format, Quantify);
    assert Without(quantify, Quantify) == [];
    assert [] + format == format;
  }

  /** A suggestion of the text endpoint is one the file endpoint gives, other than the quantification hint, and conversely. */
  lemma TextAdviceMembers(resumeText: string, a: Analysis)
    ensures forall y :: y in TextAdvice(resumeText, a) <==> y in FileAdvice(resumeText, a) && y != Quantify
  {
    TextAdviceOmitsOnlyQuantify(resumeText, a);
    WithoutMembers(FileAdvice(resumeText, a), Quantify);
  }

  /** `s` with every `x` removed. */
  function Without(s: seq<Advice>, x: Advice): seq<Advice> {
    if s == [] then []
    else (if s[0] == x then [] else [s[0]]) + Without(s[1..], x)
  }

  /** Removing `x` keeps exactly the other kinds of advice. */
  lemma {:induction false} WithoutMembers(s: seq<Advice>, x: Advice)
    ensures forall y :: y in Without(s, x) <==> y in s && y != x
    decreases |s|
  {
    if s != [] {
      WithoutMembers(s[1..], x);
      assert s == [s[0]] + s[1..];
    }
  }

  lemma WithoutNone(s: seq<Advice>, x: Advice)
    requires x !in s
    ensures Without(s, x) == s
  {
    if s != [] {
      WithoutNone(s[1..], x);
      assert s == [s[0]] + s[1..];
    }
  }

  lemma {:induction false} WithoutConcat(a: seq<Advice>, b: seq<Advice>, x: Advice)
    ensures Without(a + b, x) == Without(a, x) + Without(b, x)
    decreases |a|
  {
    if a == [] {
      assert a + b == b;
    } else {
      assert (a + b)[1..] == a[1..] + b;
      WithoutConcat(a[1..], b, x);
    }
  }

  /** The file endpoint's sentence for each kind of advice. */
  function FileSuggestion(adv: Advice): string {
    match adv
    case AddSkills(s) => "Consider adding these skills found in the JD: " + Join(s, ", ") + "."
    case Elaborate => "Your resume seems short. Elaborate on your projects and experience."
    case Quantify => "Try to quantify your achievements (e.g., 'Improved performance by 20%')."
    case FixFormatting => "The formatting might be preventing parsing, or the skill gap is significant."
  }

  /** The text endpoint's sentence for each kind of advice. */
  function TextSuggestion(adv: Advice): string {
    match adv
    case AddSkills(s) => "Missing skills: " + Join(s, ", ") + "."
    case Elaborate => "Resume is too short."
    case Quantify => ""
    case FixFormatting => "Low match score."
  }

  /** The part of an endpoint's answer the model keeps (the rounded copies are left out). */
  datatype Prediction = Prediction(shortlistProbability: real, missingKeywords: seq<string>, suggestions: seq<string>)

  /** `POST /predict-shortlist-file`, once the resume's text has been extracted. */
  function PredictFromFile(resumeText: string, jobDescription: string): (p: Prediction)
    ensures var a := Analyze(resumeText, jobDescription);
            && p.shortlistProbability == a.probability
            && p.missingKeywords == a.split.missing
    // One sentence per piece of advice, in order.
    ensures var advice := FileAdvice(resumeText, Analyze(resumeText, jobDescription));
            && |p.suggestions| == |advice|
            && forall i :: 0 <= i < |advice| ==> p.suggestions[i] == FileSuggestion(advice[i])
  {
    var a := Analyze(resumeText, jobDescription);
    var advice := FileAdvice(resumeText, a);
    Prediction(a.probability, a.split.missing, seq(|advice|, i requires 0 <= i < |advice| => FileSuggestion(advice[i])))
  }

  /** `POST /predict-shortlist-text`. */
  function PredictFromText(resumeText: string, jobDescription: string): (p: Prediction)
    ensures var a := Analyze(resumeText, jobDescription);
            && p.shortlistProbability == a.probability
            && p.missingKeywords == a.split.missing
    ensures var advice := TextAdvice(resumeText, Analyze(resumeText, jobDescription));
            && |p.suggestions| == |advice|
            && forall i :: 0 <= i < |advice| ==> p.suggestions[i] == TextSuggestion(advice[i])
  {
    var a := Analyze(resumeText, jobDescription);
    var advice := TextAdvice(resumeText, a);
    Prediction(a.probability, a.split.missing, seq(|advice|, i requires 0 <= i < |advice| => TextSuggestion(advice[i])))
  }

  /** Both endpoints agree on the probability and the missing keywords for the same input. */
  lemma EndpointsAgree(resumeText: string, jobDescription: string)
    ensures PredictFromFile(resumeText, jobDescription).shortlistProbability
         == PredictFromText(resumeText, jobDescription).shortlistProbability
    ensures PredictFromFile(resumeText, jobDescription).missingKeywords
         == PredictFromText(resumeText, jobDescription).missingKeywords
  {
  }
}

=== FILE: text.dfy ===
/**
 * The string operations the resume analyser relies on: Python's `str.lower()`
 * restricted to ASCII, the `needle in haystack` substring test, and `str.join`.
 */
module Text {

  predicate IsUpper(c: char) {
    'A' <= c <= 'Z'
  }

  function LowerChar(c: char): char {
    if IsUpper(c) then (c as int + 32) as char else c
  }

  /**
   * ASCII lower-casing: same length, each capital replaced by its small
   * letter (the code point `'a' - 'A'` higher), every other character kept.
   */
  function Lower(s: string): (r: string)
    ensures |r| == |s|
    ensures forall i :: 0 <= i < |r| ==> !IsUpper(r[i])
    ensures forall i :: 0 <= i < |s| && IsUpper(s[i]) ==> r[i] as int == s[i] as int + ('a' as int - 'A' as int)
    ensures forall i :: 0 <= i < |r| && !IsUpper(s[i]) ==> r[i] == s[i]
  {
    seq(|s|, i requires 0 <= i < |s| => LowerChar(s[i]))
  }

  predicate StartsWith(s: string, prefix: string) {
    |prefix| <= |s| && s[..|prefix|] == prefix
  }

  /** Python's `needle in hay`, computed by trying every start position. */
  predicate Contains(hay: string, needle: string)
    decreases |hay|
  {
    StartsWith(hay, needle) || (hay != [] && Contains(hay[1..], needle))
  }

  /** `needle` occupies positions `i .. i + |needle|` of `hay`. */
  ghost predicate OccursAt(hay: string, needle: string, i: int) {
    0 <= i && i + |needle| <= |hay| && hay[i..i + |needle|] == needle
  }

  /** The scanning test agrees with the positional definition of a substring, both ways. */
  lemma {:induction false} ContainsIffOccurs(hay: string, needle: string)
    ensures Contains(hay, needle) <==> exists i :: OccursAt(hay, needle, i)
    decreases |hay|
  {
    if StartsWith(hay, needle) {
      assert OccursAt(hay, needle, 0);
    } else if hay == [] {
      assert !exists i :: OccursAt(hay, needle, i);
    } else {
      ContainsIffOccurs(hay[1..], needle);
      if Contains(hay[1..], needle) {
        var i :| OccursAt(hay[1..], needle, i);
        assert hay[1..][i..i + |needle|] == hay[i + 1..i + 1 + |needle|];
        assert OccursAt(hay, needle, i + 1);
      }
      if i :| OccursAt(hay, needle, i) {
        assert i != 0;
        assert hay[1..][i - 1..i - 1 + |needle|] == hay[i..i + |needle|];
        assert OccursAt(hay[1..], needle, i - 1);
      }
    }
  }

  /** Whatever contains a word also contains each of its prefixes. */
  lemma ContainsPrefix(hay: string, word: string, k: nat)
    requires Contains(hay, word) && k <= |word|
    ensures Contains(hay, word[..k])
  {
    ContainsIffOccurs(hay, word);
    var i :| OccursAt(hay, word, i);
    assert hay[i..i + k] == hay[i..i + |word|][..k];
    assert OccursAt(hay, word[..k], i);
    ContainsIffOccurs(hay, word[..k]);
  }

  /** Python's `sep.join(parts)`. */
  function Join(parts: seq<string>, sep: string): string {
    if parts == [] then ""
    else if |parts| == 1 then parts[0]
    else parts[0] + sep + Join(parts[1..], sep)
  }
}

=== FILE: users.dfy ===
/**
 * The user route (`/api/user`): a gate that also lets through a request that
 * merely carries a user, saving the caller's resume text, and reading the
 * caller's profile. The JavaScript and TypeScript versions of the route
 * behave identically.
 */
module UserRoute {
  import opened Common
  import opened Models
  import opened Auth

  /** `ensureAuth` with the development bypass: an authenticated session, or any attached user. */
  predicate EnsureAuth(req: Request) {
    req.isAuthenticated || req.user.Some?
  }

  /**
   * Wherever the session layer marks a request authenticated exactly when it
   * attached a user, the bypass adds nothing: this gate and the plain one of
   * the application route pass the same requests.
   */
  lemma BypassIsRedundantUnderSessions(users: seq<User>, session: Option<Id>)
    ensures EnsureAuth(RequestFor(users, session)) <==> RequestFor(users, session).isAuthenticated
  {
  }

  /** A request the bypass lets through although it is not authenticated. */
  lemma BypassAdmitsUnauthenticatedUser(u: User)
    ensures EnsureAuth(Request(false, Some(u)))
    ensures !Request(false, Some(u)).isAuthenticated
  {
  }

  /**
   * `findByIdAndUpdate(id, { $set: { resumeText } })`: the record with that id
   * gets the new text and nothing else changes. An absent text is an empty
   * update; the upload stamp is not a schema path and is never stored.
   */
  function SetResume(users: seq<User>, id: Id, text: Option<string>): (r: seq<User>)
    ensures |r| == |users|
    ensures forall i :: 0 <= i < |users| && users[i].id != id ==> r[i] == users[i]
    ensures forall i :: 0 <= i < |users| && users[i].id == id ==>
      r[i] == users[i].(resumeText := if text.Some? then text else users[i].resumeText)
  {
    seq(|users|, i requires 0 <= i < |users| =>
      if users[i].id == id && text.Some? then users[i].(resumeText := text) else users[i])
  }

  datatype SaveOutcome = SaveOutcome(users: seq<User>, reply: Reply<Option<User>>)

  /** `POST /api/user/resume`: replies with the record as it is after the update (`new: true`), or null. */
  function SaveResume(users: seq<User>, req: Request, resumeText: Option<string>, storeError: Option<string>): (res: SaveOutcome)
    ensures !EnsureAuth(req) ==> res == SaveOutcome(users, Message(401, Unauthorized))
    ensures res.reply.Message? ==> res.users == users
    ensures res.reply.Json? ==>
      && res.reply.status == 200
      && req.user.Some?
      && res.users == SetResume(users, req.user.value.id, resumeText)
      && res.reply.value == FindUserById(res.users, req.user.value.id)
    ensures res.reply.Json? <==> EnsureAuth(req) && req.user.Some? && storeError.None?
    // A passed gate without a user, or a throwing update, answers 500 with the error's message.
    ensures EnsureAuth(req) && req.user.None? ==> res == SaveOutcome(users, Message(500, MissingUser))
    ensures EnsureAuth(req) && req.user.Some? && storeError.Some? ==> res == SaveOutcome(users, Message(500, storeError.value))
  {
    if !EnsureAuth(req) then SaveOutcome(users, Message(401, Unauthorized))
    else if req.user.None? then SaveOutcome(users, Message(500, MissingUser))
    else if storeError.Some? then SaveOutcome(users, Message(500, storeError.value))
    else
      var updated := SetResume(users, req.user.value.id, resumeText);
      SaveOutcome(updated, Json(200, FindUserById(updated, req.user.value.id)))
  }

  /** `GET /api/user/profile`: the caller's stored record, or null. */
  function Profile(users: seq<User>, req: Request, storeError: Option<string>): (r: Reply<Option<User>>)
    ensures !EnsureAuth(req) ==> r == Message(401, Unauthorized)
    ensures r.Json? ==>
      && r.status == 200
      && req.user.Some?
      && (r.value.Some? ==> r.value.value in users && r.value.value.id == req.user.value.id)
      && (r.value.None? <==> forall u :: u in users ==> u.id != req.user.value.id)
    ensures r.Json? <==> EnsureAuth(req) && req.user.Some? && storeError.None?
    ensures EnsureAuth(req) && req.user.None? ==> r == Message(500, MissingUser)
    ensures EnsureAuth(req) && req.user.Some? && storeError.Some? ==> r == Message(500, storeError.value)
  {
    if !EnsureAuth(req) then Message(401, Unauthorized)
    else if req.user.None? then Message(500, MissingUser)
    else if storeError.Some? then Message(500, storeError.value)
    else Json(200, FindUserById(users, req.user.value.id))
  }

  /** The updated record differs from the stored one in its resume text only. */
  lemma SaveChangesOnlyResume(users: seq<User>, req: Request, text: string)
    requires UsersWellFormed(users) && req.user.Some? && req.user.value in users
    ensures var res := SaveResume(users, req, Some(text), None);
            var before := req.user.value;
            && res.reply == Json(200, Some(before.(resumeText := Some(text))))
            && |res.users| == |users|
  {
    var id := req.user.value.id;
    var after := SetResume(users, id, Some(text));
    var k :| 0 <= k < |users| && users[k] == req.user.value;
    var found := FindUserById(after, id);
    assert after[k] == req.user.value.(resumeText := Some(text));
    assert found.Some? by { assert after[k] in after; }
    var j :| 0 <= j < |after| && after[j] == found.value;
    assert users[j].id == id;
    assert j == k;
  }

  /** Saving a resume and then reading the profile returns the saved text. */
  lemma SaveThenProfile(users: seq<User>, req: Request, text: string)
    requires UsersWellFormed(users) && req.user.Some? && req.user.value in users
    ensures var after := SaveResume(users, req, Some(text), None).users;
            var p := Profile(after, req, None);
            p.Json? && p.value.Some? && p.value.value.resumeText == Some(text)
  {
    SaveChangesOnlyResume(users, req, text);
  }

  /** Saving the same text twice leaves the store as saving it once. */
  lemma SaveResumeIdempotent(users: seq<User>, req: Request, text: Option<string>)
    requires EnsureAuth(req) && req.user.Some?
    ensures var once := SaveResume(users, req, text, None);
            SaveResume(once.users, req, text, None) == once
  {
    var id := req.user.value.id;
    var once := SetResume(users, id, text);
    var twice := SetResume(once, id, text);
    assert twice == once;
  }
}
